=== FILE: README.md ===
# Brefnews serverless handlers, modelled in Dafny

This project models the decision logic of four serverless handlers of a
news application:

- `translate-content` translates one text into one of ten languages. It
  validates the request, checks a whitelist and passes English through. It
  concatenates the endpoint's segments and falls back to the original text.
- `auto-translate-video` is a database webhook. It translates a video
  record's title, source name and platform name into six languages and
  upserts one row per language, keyed on (video id, language). It counts the
  saved rows.
- `auto-translate-news` translates an article's title, optional summary and
  structured headline into the same six languages. A throw drops only that
  language.
- `send-news-notifications` pushes one message per (article, device token)
  pair for a batch of at most five new articles. It counts successes and
  failures, then marks the whole batch notified.

Every outside service is an oracle parameter:

- The translation endpoint is `Endpoint.Translator`, a function from a
  request (text, target code) to `Ok(segments) | NotOk | Throws`.
- The video table's upsert is `AutoTranslateVideo.Store`, answering
  `Saved | Rejected | WriteThrows`.
- The push service is `SendNewsNotifications.Messenger`, answering
  `Delivered | SendFailed`.
- The notification handler's two selects and its bulk update are input values.

Each handler is a pure function (or, for the notification loop, a method)
returning its response together with the calls and writes it issued, in
order. Properties such as "no call before a 400" can therefore be stated.

JSON values the handlers read from a request are `JsValues.JsValue`, with
JavaScript truthiness (`Truthy`), string conversion (`ToString`), property
lookup (`GetProp`) and `trim` (`Trim`). Several branches of the source are
truthiness tests, and the model keeps them as such.

Modules follow the source files: `TranslateContent`, `AutoTranslateVideo`,
`AutoTranslateNews` and `SendNewsNotifications`. Shared pieces sit in
`JsValues`, `Endpoint` (segment concatenation), `Languages` (the six-language
list and the subsequence facts) and `Optional`.

Points where the code's behaviour is easy to misread:

- The translators do not always yield one result per language. The code
  drops the entry of a language whose iteration throws. The video handler
  still upserts a fallback row for it, so every language gets a written row
  (`AutoTranslateVideo.FanOutKeys`). The entries themselves form an
  order-preserving subsequence of the language list.
- The video handler reads its rows back after the loop but only logs the
  count; the response carries `successCount`.
- The single-text handler's whitelist also admits inherited object members,
  so such a target reaches the endpoint (see Findings).
- The single-text handler's catch block reads `text` and `target_language`,
  which are `const`s of the `try` block and out of scope there. The catch
  therefore throws again, and the model answers `Unhandled` without
  claiming any content.
- `translateText` (video) returns the joined segments even when they join to
  `''`. The single-text handler falls back to the original in that case.

Other behaviour the model keeps as written:

- In the video handler, the log line right after the field reads calls
  `title.substring` whenever the title is truthy. A truthy non-string title
  therefore gives a 500 before the id is checked.
- A truthy non-string source or platform name has no `trim`. That throws
  inside the per-language `try`, which triggers the fallback upsert.
- The news handler never checks the title, so a missing title is sent to the
  endpoint as the text `"undefined"`.
- The notification handler only tests that the token list is non-empty. A
  list whose every `fcm_token` is empty sends nothing and still marks the
  batch notified.

## Model

| member | source | states |
|---|---|---|
| `TranslateContent.Decide` | supabase/functions/translate-content/index.ts:26-90 | A falsy `text` or `target_language` gives the 400 "Text and target_language are required". A valid request whose target is outside the ten keys gives the 400 "Unsupported language". Neither makes a call. At most one call is made: exactly when the request is valid and the target is not `en`. `en` passes the text through. Every translation echoes `original_text` and `target_language` and is never empty. A non-ok answer, or segments concatenating to `''`, gives the original. A throw is the only `Unhandled` case. |
| `TranslateContent.DecideAsWritten` | supabase/functions/translate-content/index.ts:36-41 | The whitelist as written agrees with the ten-key whitelist on every target that is not an inherited `Object.prototype` member name |
| `TranslateContent.Handle` | supabase/functions/translate-content/index.ts:26-41 | A `null` body throws in both the try and the catch. Any other body is answered as `Decide` answers its `text` and `target_language`, a missing field reading as `undefined`. So a non-object body, or an object missing either field, gives the 400 for missing fields with no call. |
| `TranslateContent.HandleAsWritten` | supabase/functions/translate-content/index.ts:26-41 | The same destructuring in front of the prototype-chain whitelist. It answers exactly as `Handle` does unless the target names an inherited `Object.prototype` member. |
| `TranslateContent.ConcatTruthyEmptyIff` | supabase/functions/translate-content/index.ts:62-74 | The skip-falsy concatenation is empty exactly when every segment is falsy |
| `TranslateContent.FalsySegmentsFallBack` | supabase/functions/translate-content/index.ts:60-79 | An ok answer whose `data[0]` is missing, empty or all falsy yields `translated_text == text` |
| `TranslateContent.HelloToSpanish` | supabase/functions/translate-content/index.ts:55-79 | `{text: "Hello", target_language: "es"}` with answer `[[["Hola","Hello",null,null,1]]]` yields "Hola" with one call |
| `TranslateContent.PrototypeKeyReachesEndpoint` | supabase/functions/translate-content/index.ts:36-41 | As written, target `constructor` reaches the endpoint. With the ten-key whitelist it gets "Unsupported language" and no call. |
| `TranslateContent.AsWrittenDiffersOnlyOnPrototypeKeys` | supabase/functions/translate-content/index.ts:8-19 | For non-empty strings, the two whitelists give different outcomes exactly on the inherited member names |
| `Endpoint.JoinAppend` | supabase/functions/auto-translate-video/index.ts:22 | `join('')` of the segment texts distributes over concatenation: each segment contributes its text in order |
| `Endpoint.JoinEmptyIff` | supabase/functions/auto-translate-video/index.ts:21-22 | The joined text is empty exactly when every segment contributes nothing |
| `Endpoint.ConcatTruthyAgreesWithJoin` | supabase/functions/translate-content/index.ts:64-70 | The skip-falsy loop and `map(...).join('')` agree on every segment list without `false` or `0` |
| `Endpoint.ConcatTruthyDiffersOnZero` | supabase/functions/translate-content/index.ts:65-69 | On the segment `0` the loop writes nothing while `join` writes "0" |
| `JsValues.BlankIffTrimEmpty` | supabase/functions/auto-translate-video/index.ts:12 | `text.trim() === ''` holds exactly when every character is ECMAScript whitespace or a line terminator |
| `Languages.TargetsHaveNoDuplicates` | supabase/functions/auto-translate-video/index.ts:9 | The fan-out list has six distinct codes |
| `AutoTranslateVideo.TranslateText` | supabase/functions/auto-translate-video/index.ts:11-30 | Blank input comes back unchanged. An ok answer with a non-empty `data[0]` gives the joined segments. Any other answer, including a throw, gives the input. |
| `AutoTranslateVideo.TranslateField` | supabase/functions/auto-translate-video/index.ts:86-105 | A field throws exactly when it is truthy but not a string. A falsy or blank field is kept with no call. A non-blank string makes exactly one call and takes `translateText`'s result. |
| `AutoTranslateVideo.TranslateLanguage` | supabase/functions/auto-translate-video/index.ts:83-162 | Every upsert of an iteration is keyed on (video id, language). The entry exists exactly when all three fields are kept and the upsert does not throw. A throwing field writes only the fallback row of originals. A throwing upsert writes the translated row and then the fallback. A completed iteration writes one row. Its `success` says whether the store saved that row, and each `*_translated` flag says whether that field's value changed. The endpoint calls are the fields' own, in field order, up to the first field that throws. A non-string field forces the throw path. |
| `AutoTranslateVideo.FanOut` | supabase/functions/auto-translate-video/index.ts:79-136 | `successCount` equals the number of entries whose `success` is true and is bounded by the entry count, which is bounded by the language count |
| `AutoTranslateVideo.FanOutOrder` | supabase/functions/auto-translate-video/index.ts:82-136 | The entries' languages are an order-preserving subsequence of the language list |
| `AutoTranslateVideo.FanOutKeys` | supabase/functions/auto-translate-video/index.ts:110-161 | Every upsert is keyed on the video id and a listed language. Every listed language has at least one row written, whatever the other languages did. |
| `AutoTranslateVideo.FanOutEntries` | supabase/functions/auto-translate-video/index.ts:82-162 | Every entry is its own language's iteration result, and every completed iteration contributes its entry |
| `AutoTranslateVideo.FanOutUpserts` | supabase/functions/auto-translate-video/index.ts:82-162 | The loop issues exactly the upserts of its iterations: every upsert is one its language's iteration issued, and every upsert of every iteration is issued. So a completed language writes its translated row and a throwing one its fallback row of originals. |
| `AutoTranslateVideo.FanOutIssues` | supabase/functions/auto-translate-video/index.ts:82-162 | The loop's upserts and its endpoint calls are exactly its iterations' upserts and calls laid end to end in language order, each iteration's in its own order. Nothing is added, repeated or dropped, a throwing language included. |
| `AutoTranslateVideo.IterationsAt` | supabase/functions/auto-translate-video/index.ts:82-83 | The per-language lists used by `FanOutIssues` have one entry per language, and the i-th entry is the i-th language's own upserts and calls |
| `AutoTranslateVideo.Handle` | supabase/functions/auto-translate-video/index.ts:37-183 | A `null` payload gives a 500. A missing record gives "No record data received". A truthy non-string title gives a 500. A missing id gives "Video ID is required". No error makes a call or a write. Any other record gets the summary of the six-language loop: its id, that loop's `successCount`, `total_languages == 6` and its entries, with its upserts and calls. A summary counts at most 6 successes, lists entries in language order with no language repeated, and every language has a written row. |
| `AutoTranslateVideo.BlankFieldNeverTranslated` | supabase/functions/auto-translate-video/index.ts:87-135 | A missing or blank title, source name or platform name is never flagged translated |
| `AutoTranslateVideo.EndpointDownKeepsOriginals` | supabase/functions/auto-translate-video/index.ts:11-29 | When no call for a language yields a usable answer (each is non-ok, throws, or has an empty `data[0]`), every row written for that language carries the original field values |
| `AutoTranslateNews.TranslateValue` | supabase/functions/auto-translate-news/index.ts:31-41 | Exactly one call, with the value's string form. A throw fails the block. A non-ok answer or an empty `data[0]` keeps the original. A non-empty `data[0]` replaces it with the joined segments. |
| `AutoTranslateNews.TranslateSummary` | supabase/functions/auto-translate-news/index.ts:44-56 | A falsy summary is kept with no call; a truthy one is translated like the title |
| `AutoTranslateNews.TranslateKey` | supabase/functions/auto-translate-news/index.ts:63-87 | A falsy or missing value leaves the copy as it is, with no call. A truthy value is sent, the key fails exactly when that fetch throws, and otherwise the copy's key takes the block's result. No other key of the copy changes. |
| `AutoTranslateNews.TranslateHeadline` | supabase/functions/auto-translate-news/index.ts:59-90 | A non-object headline is kept with no call. For an object, the block fails exactly when the `headline` or `subheadline` fetch throws. `headline` is sent before `subheadline`, each only when truthy and with its string form, and nothing is sent after a throw. Otherwise it yields an object with the same keys. Truthy `headline`/`subheadline` values take their blocks' results, falsy ones are kept, and every other key keeps its value. |
| `AutoTranslateNews.TranslateLanguage` | supabase/functions/auto-translate-news/index.ts:29-105 | The title is always sent first. The calls are the title, summary and headline blocks' own, in that order, up to the first block that throws, so a falsy summary sends nothing. A throw on the title drops the entry. An entry carries exactly the three blocks' results. No entry means one of the blocks threw. |
| `AutoTranslateNews.FanOut` | supabase/functions/auto-translate-news/index.ts:25-106 | There are no more entries than languages |
| `AutoTranslateNews.FanOutOrder` | supabase/functions/auto-translate-news/index.ts:28-97 | The entries' languages are an order-preserving subsequence of the language list |
| `AutoTranslateNews.FanOutEntries` | supabase/functions/auto-translate-news/index.ts:28-106 | Every entry is its own language's iteration result, and every completed iteration contributes its entry |
| `AutoTranslateNews.FanOutCalls` | supabase/functions/auto-translate-news/index.ts:28-106 | The loop's endpoint calls are exactly its iterations' calls laid end to end in language order, each iteration's in its own order, a language that threw included |
| `AutoTranslateNews.IterationCallsAt` | supabase/functions/auto-translate-news/index.ts:28-29 | The per-language call lists used by `FanOutCalls` have one entry per language, and the i-th is the i-th language's own calls |
| `AutoTranslateNews.Handle` | supabase/functions/auto-translate-news/index.ts:15-115 | A `null` body gives a 500. A falsy `article_id` gives "Article ID is required" with no call. A truthy one gets a success echoing `article_id` with the entries of the six-language loop, in which a throw drops only its own language. The response holds at most six entries, in language order, with no language repeated. |
| `AutoTranslateNews.ThrowDropsOnlyThatLanguage` | supabase/functions/auto-translate-news/index.ts:102-105 | A language whose title call throws has no entry, while every other completing language keeps its entry |
| `AutoTranslateNews.MissingTitleIsSentAsUndefined` | supabase/functions/auto-translate-news/index.ts:31-33 | A request without a title sends the text "undefined" in every language |
| `SendNewsNotifications.Body` | supabase/functions/send-news-notifications/index.ts:105 | The body is the first min(length, 100) characters of the summary (or of "New news update" when the summary is empty or missing) followed by "...". It is at most 103 long and ends with "...". |
| `SendNewsNotifications.BuildMessage` | supabase/functions/send-news-notifications/index.ts:101-130 | The message goes to the given token for the article's id, and the notification block and the APNs alert carry the same title and body |
| `SendNewsNotifications.ArticleMessagesTokens` | supabase/functions/send-news-notifications/index.ts:92-96 | One article's messages go to exactly the non-empty tokens, in token order |
| `SendNewsNotifications.MessagesCount` | supabase/functions/send-news-notifications/index.ts:89-143 | There is one message per (article, non-empty token) pair |
| `SendNewsNotifications.SendToTokens` | supabase/functions/send-news-notifications/index.ts:92-142 | For one article, a message goes to each non-empty token in token order, and an empty token is skipped without counting. Every send lands in exactly one of the two counters: `successCount` when the push service accepts it, `errorCount` when it throws. |
| `SendNewsNotifications.CountDeliveredAppend` | supabase/functions/send-news-notifications/index.ts:86-142 | The delivered count of two runs of sends, one after the other, is the sum of their counts, so the success counter can be accumulated article by article |
| `SendNewsNotifications.SendAll` | supabase/functions/send-news-notifications/index.ts:86-143 | Every pair is attempted whatever earlier sends did. `successCount` counts the delivered sends, and `successCount + errorCount` equals the number of articles times the number of non-empty tokens. Skipped tokens count as neither. |
| `SendNewsNotifications.Handle` | supabase/functions/send-news-notifications/index.ts:37-164 | A query error gives a 500. An empty batch gives "No new articles" and an empty token list "No user tokens found", each with no send and no update. Otherwise every pair is sent (at most 5 × tokens) and every fetched id is marked, whatever the sends did, even when every token is empty and nothing is sent. The response reports the batch size and the two counters, or a 500 when the update fails. |
| `SendNewsNotifications.EmptyTokensSendNothing` | supabase/functions/send-news-notifications/index.ts:72-96 | A token list whose every `fcm_token` is empty produces no message at all |

## Left out

- HTTP serving, the `OPTIONS` preflight, CORS headers and JSON parsing. Each handler starts from the parsed body as a `JsValue`, and responses are datatypes rather than bytes.
- The bodies of the `try` blocks that only call foreign libraries: the Supabase client (`createClient`, `eq`, `order`, `limit`, upsert conflict resolution) and Firebase Admin initialisation at module load. They are oracle answers and preconditions. The model records which upserts were issued with which key, not the table they produce, so what repeated upserts on one key leave in the table is not stated.
- The 500 ms pause between languages. It affects timing only.
- The `updated_at: new Date().toISOString()` column of every video upsert, translated and fallback alike. It is a clock value; a `Row` carries the other five columns.
- The read-back `select` of the video handler. Its result is only logged.
- All logging, except that the video handler's log line can throw (see above).
- The `delete` handler. Its logic is a wall-clock date and a database-side `lt` filter. The Android build and iOS bootstrap files are also left out.
- JSON arrays and fractional numbers in `JsValue`, and objects with their own `toString` key. An array `headline` would be spread into an index-keyed object.
- Answers whose `data[0]` is not an array. `Fetch.Ok` carries the `item[0]` values of an array `data[0]`, and any payload that makes the handler throw is `Throws`.
- Strings count characters, while JavaScript counts UTF-16 code units. For text outside the Basic Multilingual Plane, `substring(0, 100)` keeps fewer characters, and `trim` sees code units.
- The oracles answer each distinct request the same way within one invocation. An endpoint that answers two identical requests differently in one run is not modelled.
- SendNewsNotifications.Handle: the article query's filter, order and limit are taken as a precondition (at most 5 rows, none notified), and the table columns are typed strings rather than arbitrary JSON.
- TranslateContent.Handle: the `Unhandled` outcome does not say what the runtime sends back.
- TranslateContent.Handle: composes the ten-key whitelist of `Decide`, not the one written at line 36; `HandleAsWritten` composes the written one, and the two differ only on inherited member names (see Findings).
- Numbers are unbounded integers. `req.json()` rounds integers beyond 2^53 to the nearest double, and `String` writes magnitudes of 10^21 and more in exponent form (`1e+21`). For such numbers the text sent to the endpoint and echoed back differs from `ToString`.

## Findings

| source | as written | input that shows it | evidently intended | confidence | as-written member | corrected member |
|---|---|---|---|---|---|---|
| supabase/functions/translate-content/index.ts:36 | `!supportedLanguages[target_language]` looks the key up through the prototype chain, so inherited members such as `constructor` or `toString` read as truthy and pass the whitelist | `{ "text": "Hello", "target_language": "constructor" }` calls the endpoint with `tl=constructor` instead of answering 400 "Unsupported language" | only the ten listed language keys pass | high, from JavaScript property lookup; not executed | `TranslateContent.DecideAsWritten` (shown by `TranslateContent.PrototypeKeyReachesEndpoint`) | `TranslateContent.Decide` |

=== FILE: auto_translate_news.dfy ===
/** The news-article handler (`auto-translate-news`): for each of six target
    languages, translate the title, the summary when there is one, and the
    `headline` and `subheadline` of a structured headline object; a throw
    anywhere in a language drops that language's entry and the loop goes on. */
module AutoTranslateNews {
  import opened JsValues
  import opened Endpoint
  import opened Optional
  import Languages

  const MissingIdError: string := "Article ID is required"

  /** The destructured request body. */
  datatype Article = Article(id: JsValue, title: JsValue, summary: JsValue, headline: JsValue)

  /** One translated value with the calls made for it, or a throw after
      those calls. */
  datatype Attempt = Done(value: JsValue, calls: seq<Request>) | Failed(calls: seq<Request>)

  /** One fetch-and-replace block (for instance lines 31-41): the original is
      sent as text and replaced only by a non-empty ok answer. */
  function TranslateValue(original: JsValue, target: string, translate: Translator): (r: Attempt)
    ensures r.calls == [Request(ToString(original), target)]
    ensures var answer := translate(Request(ToString(original), target));
      && (r.Failed? <==> answer.Throws?)
      && (answer.NotOk? || answer == Ok([]) ==> r == Done(original, r.calls))
      && (answer.Ok? && answer.segments != [] ==> r == Done(Str(Join(answer.segments)), r.calls))
  {
    var request := Request(ToString(original), target);
    match translate(request)
    case Throws => Failed([request])
    case NotOk => Done(original, [request])
    case Ok(segments) => Done(if |segments| > 0 then Str(Join(segments)) else original, [request])
  }

  /** The summary block (lines 44-56): a falsy summary is kept without a call. */
  function TranslateSummary(summary: JsValue, target: string, translate: Translator): (r: Attempt)
    ensures !Truthy(summary) ==> r == Done(summary, [])
    ensures Truthy(summary) ==> r == TranslateValue(summary, target, translate)
  {
    if Truthy(summary) then TranslateValue(summary, target, translate) else Done(summary, [])
  }

  /** One key of the headline copy (lines 63-74 and 76-87): the value is read
      from the original object and, when truthy, its translation is written
      into the copy under the same key. */
  function TranslateKey(original: map<string, JsValue>, copy: map<string, JsValue>, key: string,
                        target: string, translate: Translator): (r: Attempt)
    ensures r.Done? ==> r.value.Obj? && r.value.fields.Keys == copy.Keys + (if key in original && Truthy(original[key]) then {key} else {})
    ensures r.Done? ==> forall k :: k in copy && k != key ==> r.value.fields[k] == copy[k]
    ensures !(key in original && Truthy(original[key])) ==> r == Done(Obj(copy), [])
    // a truthy value is sent, and the copy's key takes the block's result
    ensures key in original && Truthy(original[key]) ==>
      var attempt := TranslateValue(original[key], target, translate);
      && r.calls == attempt.calls
      && (r.Failed? <==> attempt.Failed?)
      && (r.Done? ==> key in r.value.fields && r.value.fields[key] == attempt.value)
  {
    if key in original && Truthy(original[key]) then
      match TranslateValue(original[key], target, translate)
      case Failed(calls) => Failed(calls)
      case Done(value, calls) => Done(Obj(copy[key := value]), calls)
    else Done(Obj(copy), [])
  }

  /** The block for `fields[key]` runs and throws. */
  predicate KeyThrows(fields: map<string, JsValue>, key: string, target: string, translate: Translator) {
    key in fields && Truthy(fields[key]) && TranslateValue(fields[key], target, translate).Failed?
  }

  /** The call the block for `fields[key]` makes: one, with the value's
      string form, when the value is truthy, and none otherwise. */
  function KeyCalls(fields: map<string, JsValue>, key: string, target: string): seq<Request> {
    if key in fields && Truthy(fields[key]) then [Request(ToString(fields[key]), target)] else []
  }

  /** The headline block (lines 59-90): anything but an object passes
      through untouched; an object is shallow-copied and only its `headline`
      and `subheadline` keys can change. */
  function TranslateHeadline(headline: JsValue, target: string, translate: Translator): (r: Attempt)
    ensures !headline.Obj? ==> r == Done(headline, [])
    ensures headline.Obj? && r.Done? ==>
      && r.value.Obj?
      && r.value.fields.Keys == headline.fields.Keys
      && forall k :: k in headline.fields && k != "headline" && k != "subheadline" ==>
           r.value.fields[k] == headline.fields[k]
    ensures headline.Obj? && r.Done? && "headline" in headline.fields && !Truthy(headline.fields["headline"]) ==>
      r.value.fields["headline"] == headline.fields["headline"]
    ensures headline.Obj? && r.Done? && "subheadline" in headline.fields && !Truthy(headline.fields["subheadline"]) ==>
      r.value.fields["subheadline"] == headline.fields["subheadline"]
    // the block throws exactly when one of the two fetches throws
    ensures headline.Obj? ==>
      var fails := KeyThrows(headline.fields, "headline", target, translate)
        || KeyThrows(headline.fields, "subheadline", target, translate);
      r.Failed? <==> fails
    // `headline` is sent before `subheadline`, each only when truthy, and
    // nothing follows a throw
    ensures headline.Obj? ==>
      var first := KeyCalls(headline.fields, "headline", target);
      && (KeyThrows(headline.fields, "headline", target, translate) ==> r.calls == first)
      && (!KeyThrows(headline.fields, "headline", target, translate) ==>
            r.calls == first + KeyCalls(headline.fields, "subheadline", target))
    // truthy `headline` and `subheadline` values take their blocks' results
    ensures headline.Obj? && r.Done? && "headline" in headline.fields && Truthy(headline.fields["headline"]) ==>
      var attempt := TranslateValue(headline.fields["headline"], target, translate);
      attempt.Done? && r.value.fields["headline"] == attempt.value
    ensures headline.Obj? && r.Done? && "subheadline" in headline.fields && Truthy(headline.fields["subheadline"]) ==>
      var attempt := TranslateValue(headline.fields["subheadline"], target, translate);
      attempt.Done? && r.value.fields["subheadline"] == attempt.value
  {
    if !(Truthy(headline) && headline.Obj?) then Done(headline, [])
    else
      var original := headline.fields;
      match TranslateKey(original, original, "headline", target, translate)
      case Failed(calls) => Failed(calls)
      case Done(first, firstCalls) =>
        match TranslateKey(original, first.fields, "subheadline", target, translate)
        case Failed(calls) => Failed(firstCalls + calls)
        case Done(second, secondCalls) => Done(second, firstCalls + secondCalls)
  }

  /** One entry of `translations`. */
  datatype Translation = Translation(language: string, title: JsValue, summary: JsValue, headline: JsValue)

  /** One language's iteration: its entry, unless something threw, and its calls. */
  datatype Step = Step(translation: Option<Translation>, calls: seq<Request>)

  /** One iteration of the language loop (lines 29-105). */
  function TranslateLanguage(article: Article, target: string, translate: Translator): (s: Step)
    // the title is always sent, first, even when it is missing
    ensures |s.calls| >= 1 && s.calls[0] == Request(ToString(article.title), target)
    // any throw drops the entry
    ensures translate(Request(ToString(article.title), target)).Throws? ==> s.translation.None?
    ensures s.translation.Some? ==>
      && s.translation.value.language == target
      && TranslateValue(article.title, target, translate) == Done(s.translation.value.title, [s.calls[0]])
      && TranslateSummary(article.summary, target, translate).Done?
      && TranslateSummary(article.summary, target, translate).value == s.translation.value.summary
      && TranslateHeadline(article.headline, target, translate).Done?
      && TranslateHeadline(article.headline, target, translate).value == s.translation.value.headline
    // the calls are the blocks' own, in block order, up to the first throw
    ensures
      var title := TranslateValue(article.title, target, translate);
      var summary := TranslateSummary(article.summary, target, translate);
      var headline := TranslateHeadline(article.headline, target, translate);
      && (title.Failed? ==> s.calls == title.calls)
      && (title.Done? && summary.Failed? ==> s.calls == title.calls + summary.calls)
      && (title.Done? && summary.Done? ==> s.calls == title.calls + summary.calls + headline.calls)
    ensures s.translation.None? ==>
      || TranslateValue(article.title, target, translate).Failed?
      || TranslateSummary(article.summary, target, translate).Failed?
      || TranslateHeadline(article.headline, target, translate).Failed?
  {
    match TranslateValue(article.title, target, translate)
    case Failed(calls) => Step(None, calls)
    case Done(title, titleCalls) =>
      match TranslateSummary(article.summary, target, translate)
      case Failed(calls) => Step(None, titleCalls + calls)
      case Done(summary, summaryCalls) =>
        match TranslateHeadline(article.headline, target, translate)
        case Failed(calls) => Step(None, titleCalls + summaryCalls + calls)
        case Done(headline, headlineCalls) =>
          Step(Some(Translation(target, title, summary, headline)), titleCalls + summaryCalls + headlineCalls)
  }

  function EntryLanguages(translations: seq<Translation>): (langs: seq<string>)
    ensures |langs| == |translations|
    ensures forall i :: 0 <= i < |translations| ==> langs[i] == translations[i].language
  {
    if |translations| == 0 then []
    else EntryLanguages(translations[..|translations| - 1]) + [translations[|translations| - 1].language]
  }

  /** The state after the loop: `results` and the endpoint calls in order. */
  datatype Run = Run(translations: seq<Translation>, calls: seq<Request>)

  /** The loop over `targets` (line 28), one iteration per language. */
  function FanOut(article: Article, targets: seq<string>, translate: Translator): (run: Run)
    decreases |targets|
    ensures |run.translations| <= |targets|
  {
    if |targets| == 0 then Run([], [])
    else
      var prior := FanOut(article, targets[..|targets| - 1], translate);
      var step := TranslateLanguage(article, targets[|targets| - 1], translate);
      match step.translation
      case None => Run(prior.translations, prior.calls + step.calls)
      case Some(entry) => Run(prior.translations + [entry], prior.calls + step.calls)
  }

  /** One more language appends at most one entry: its own iteration's. */
  lemma FanOutSnoc(article: Article, targets: seq<string>, translate: Translator)
    requires |targets| > 0
    ensures var prior := FanOut(article, targets[..|targets| - 1], translate).translations;
      var entries := FanOut(article, targets, translate).translations;
      var step := TranslateLanguage(article, targets[|targets| - 1], translate).translation;
      && (step.None? ==> entries == prior)
      && (step.Some? ==> entries == prior + [step.value] && step.value.language == targets[|targets| - 1])
  {
  }

  /** Entries come in language order, at most one per language. */
  lemma {:induction false} FanOutOrder(article: Article, targets: seq<string>, translate: Translator)
    ensures Languages.IsSubsequence(EntryLanguages(FanOut(article, targets, translate).translations), targets)
    decreases |targets|
  {
    if |targets| > 0 {
      var init := targets[..|targets| - 1];
      var prior := FanOut(article, init, translate).translations;
      var entries := FanOut(article, targets, translate).translations;
      var step := TranslateLanguage(article, targets[|targets| - 1], translate).translation;
      FanOutOrder(article, init, translate);
      FanOutSnoc(article, targets, translate);
      if step.None? {
        Languages.SubsequenceSkip(EntryLanguages(entries), targets);
      } else {
        assert entries[..|entries| - 1] == prior;
        assert EntryLanguages(entries)[..|entries| - 1] == EntryLanguages(prior);
        Languages.SubsequenceTake(EntryLanguages(entries), targets);
      }
    }
  }

  /** Each entry is what its language's iteration produced, and every
      iteration that completes contributes its entry: a throw in one
      language costs only that language. */
  lemma {:induction false} FanOutEntries(article: Article, targets: seq<string>, translate: Translator)
    ensures forall e :: e in FanOut(article, targets, translate).translations ==>
      e.language in targets && TranslateLanguage(article, e.language, translate).translation == Some(e)
    ensures forall t :: t in targets && TranslateLanguage(article, t, translate).translation.Some? ==>
      TranslateLanguage(article, t, translate).translation.value in FanOut(article, targets, translate).translations
    decreases |targets|
  {
    if |targets| > 0 {
      var init := targets[..|targets| - 1];
      var target := targets[|targets| - 1];
      FanOutEntries(article, init, translate);
      FanOutSnoc(article, targets, translate);
      assert targets == init + [target];
    }
  }

  /** Each language's endpoint calls, in language order. */
  function IterationCalls(article: Article, targets: seq<string>, translate: Translator): seq<seq<Request>>
    decreases |targets|
  {
    if |targets| == 0 then []
    else
      IterationCalls(article, targets[..|targets| - 1], translate)
      + [TranslateLanguage(article, targets[|targets| - 1], translate).calls]
  }

  /** The i-th list is the i-th language's own calls. */
  lemma {:induction false} IterationCallsAt(article: Article, targets: seq<string>, translate: Translator)
    ensures |IterationCalls(article, targets, translate)| == |targets|
    ensures forall i :: 0 <= i < |targets| ==>
      IterationCalls(article, targets, translate)[i] == TranslateLanguage(article, targets[i], translate).calls
    decreases |targets|
  {
    if |targets| > 0 {
      var init := targets[..|targets| - 1];
      IterationCallsAt(article, init, translate);
      assert forall i :: 0 <= i < |init| ==> targets[i] == init[i];
    }
  }

  /** The loop makes exactly its iterations' calls: language by language,
      each iteration's in its own order, including those of a language
      that threw. */
  lemma {:induction false} FanOutCalls(article: Article, targets: seq<string>, translate: Translator)
    ensures FanOut(article, targets, translate).calls == Languages.Flatten(IterationCalls(article, targets, translate))
    decreases |targets|
  {
    if |targets| > 0 {
      var init := targets[..|targets| - 1];
      var step := TranslateLanguage(article, targets[|targets| - 1], translate);
      FanOutCalls(article, init, translate);
      var calls := IterationCalls(article, init, translate);
      Languages.FlattenSnoc(calls, step.calls);
    }
  }

  datatype Response =
    /** status 400 with `{ error }` */
    | BadRequest(error: string)
    /** status 500 with `{ error: 'Auto translation failed' }` */
    | ServerError
    /** status 200 with `{ success: true, article_id, translations }` */
    | Translations(articleId: JsValue, translations: seq<Translation>)

  datatype Outcome = Outcome(response: Response, calls: seq<Request>)

  /** The whole request on the parsed body: destructuring a `null` body
      throws into the outer catch. */
  function Handle(body: JsValue, translate: Translator): (out: Outcome)
    ensures body.Null? || body.Undefined? ==> out == Outcome(ServerError, [])
    ensures !body.Null? && !body.Undefined? && !Truthy(Prop(body, "article_id")) ==>
      out == Outcome(BadRequest(MissingIdError), [])
    // a completed run echoes the article id and lists at most one entry
    // per language, in language order
    ensures out.response.Translations? ==>
      && !body.Null? && !body.Undefined?
      && out.response.articleId == Prop(body, "article_id")
      && Truthy(out.response.articleId)
      && |out.response.translations| <= 6
      && Languages.IsSubsequence(EntryLanguages(out.response.translations), Languages.Targets)
      && Languages.NoDuplicates(EntryLanguages(out.response.translations))
    // an article id runs the six-language loop and reports its entries
    ensures !body.Null? && !body.Undefined? && Truthy(Prop(body, "article_id")) ==>
      var article := Article(Prop(body, "article_id"), Prop(body, "title"), Prop(body, "summary"), Prop(body, "headline"));
      var run := FanOut(article, Languages.Targets, translate);
      out == Outcome(Translations(article.id, run.translations), run.calls)
  {
    if body.Null? || body.Undefined? then Outcome(ServerError, [])
    else
      var article := Article(Prop(body, "article_id"), Prop(body, "title"), Prop(body, "summary"), Prop(body, "headline"));
      if !Truthy(article.id) then Outcome(BadRequest(MissingIdError), [])
      else
        var run := FanOut(article, Languages.Targets, translate);
        FanOutOrder(article, Languages.Targets, translate);
        Languages.TargetsHaveNoDuplicates();
        Languages.SubsequenceNoDuplicates(EntryLanguages(run.translations), Languages.Targets);
        Outcome(Translations(article.id, run.translations), run.calls)
  }

  /** A language whose title call throws has no entry, and every other
      language that completes still has its entry. */
  lemma ThrowDropsOnlyThatLanguage(article: Article, target: string, translate: Translator)
    requires target in Languages.Targets
    requires translate(Request(ToString(article.title), target)).Throws?
    ensures forall e :: e in FanOut(article, Languages.Targets, translate).translations ==> e.language != target
    ensures forall t :: t in Languages.Targets && TranslateLanguage(article, t, translate).translation.Some? ==>
      TranslateLanguage(article, t, translate).translation.value in FanOut(article, Languages.Targets, translate).translations
  {
    FanOutEntries(article, Languages.Targets, translate);
  }

  /** The title is never checked: a request without one sends the text
      "undefined" to the endpoint in every language. */
  lemma MissingTitleIsSentAsUndefined(article: Article, target: string, translate: Translator)
    requires article.title == Undefined
    ensures TranslateLanguage(article, target, translate).calls[0] == Request("undefined", target)
  {
  }
}

=== FILE: auto_translate_video.dfy ===
/** The video-record webhook (`auto-translate-video`): for each of six target
    languages, translate the record's title, source name and platform name,
    upsert one row keyed on (video id, language), and report which languages
    were saved. The database is an oracle that answers each upsert. */
module AutoTranslateVideo {
  import opened JsValues
  import opened Endpoint
  import opened Optional
  import Languages

  const NoRecordError: string := "No record data received"
  const MissingIdError: string := "Video ID is required"

  /** The fields the handler reads from `payload.record`. */
  datatype Video = Video(id: JsValue, title: JsValue, sourceName: JsValue, platformName: JsValue)

  /** One row upserted into `video_translations` with conflict target
      `video_article_id,language_code` (the `updated_at` clock value is not modelled). */
  datatype Row = Row(videoId: JsValue, language: string, title: JsValue, sourceName: JsValue, platformName: JsValue)

  /** How an upsert ends: `{ error: null }`, `{ error }`, or a thrown exception. */
  datatype Write = Saved | Rejected | WriteThrows

  /** The database, as far as one invocation can observe it. */
  type Store = Row -> Write

  /** One entry of `results`. */
  datatype LanguageResult = LanguageResult(
    language: string,
    success: bool,
    titleTranslated: bool,
    sourceNameTranslated: bool,
    platformNameTranslated: bool)

  /** `translateText`: blank text is returned as is without a call; any
      failure, including a thrown exception, falls back to the input. */
  function TranslateText(text: string, target: string, translate: Translator): (r: string)
    ensures IsBlank(text) ==> r == text
    ensures !IsBlank(text) && translate(Request(text, target)).Ok? && |translate(Request(text, target)).segments| > 0
      ==> r == Join(translate(Request(text, target)).segments)
    ensures !(translate(Request(text, target)).Ok? && |translate(Request(text, target)).segments| > 0) ==> r == text
  {
    BlankIffTrimEmpty(text);
    if text == "" || Trim(text) == "" then text
    else
      match translate(Request(text, target))
      case Ok(segments) => if |segments| > 0 then Join(segments) else text
      case _ => text
  }

  /** One field for one language: kept with the calls it made, or a throw
      because the field is truthy but not a string and has no `trim`. */
  datatype FieldStep = Kept(value: JsValue, calls: seq<Request>) | FieldThrows

  /** `let translated = field; if (field && field.trim() !== '') translated = await translateText(field, lang)`. */
  function TranslateField(v: JsValue, target: string, translate: Translator): (r: FieldStep)
    ensures r.FieldThrows? <==> Truthy(v) && !v.Str?
    ensures r.Kept? && (!v.Str? || IsBlank(v.s)) ==> r == Kept(v, [])
    ensures r.Kept? && v.Str? && !IsBlank(v.s) ==>
      r == Kept(Str(TranslateText(v.s, target, translate)), [Request(v.s, target)])
  {
    BlankIffTrimEmpty(if v.Str? then v.s else "");
    if !Truthy(v) then Kept(v, [])
    else if !v.Str? then FieldThrows
    else if Trim(v.s) == "" then Kept(v, [])
    else Kept(Str(TranslateText(v.s, target, translate)), [Request(v.s, target)])
  }

  /** The catch block's row: the untranslated originals. */
  function FallbackRow(video: Video, target: string): Row {
    Row(video.id, target, video.title, video.sourceName, video.platformName)
  }

  /** The row the try block upserts, when all three field reads survive. */
  function KeptRow(video: Video, target: string, translate: Translator): Option<Row> {
    var title := TranslateField(video.title, target, translate);
    var sourceName := TranslateField(video.sourceName, target, translate);
    var platformName := TranslateField(video.platformName, target, translate);
    if title.Kept? && sourceName.Kept? && platformName.Kept? then
      Some(Row(video.id, target, title.value, sourceName.value, platformName.value))
    else None
  }

  /** Everything one language's iteration does: the upserts it issues, its
      `results` entry if it has one, and its calls to the endpoint. */
  datatype Step = Step(upserts: seq<Row>, result: Option<LanguageResult>, calls: seq<Request>)

  /** One iteration of the language loop (lines 83-162). */
  function TranslateLanguage(video: Video, target: string, translate: Translator, store: Store): (s: Step)
    // every upsert of the iteration is keyed on (video id, this language)
    ensures 1 <= |s.upserts| <= 2
    ensures forall u :: u in s.upserts ==> u.videoId == video.id && u.language == target
    // a throw costs the language its entry and writes the originals instead
    ensures s.result.None? ==> s.upserts[|s.upserts| - 1] == FallbackRow(video, target)
    // a completed iteration writes one row, reports whether it was saved,
    // and flags exactly the fields whose value changed
    ensures s.result.Some? ==>
      var row := s.upserts[0];
      && |s.upserts| == 1
      && s.result.value.language == target
      && (s.result.value.success <==> store(row) == Saved)
      && (s.result.value.titleTranslated <==> row.title != video.title)
      && (s.result.value.sourceNameTranslated <==> row.sourceName != video.sourceName)
      && (s.result.value.platformNameTranslated <==> row.platformName != video.platformName)
    ensures s.result.Some? ==>
      && TranslateField(video.title, target, translate).Kept?
      && TranslateField(video.title, target, translate).value == s.upserts[0].title
      && TranslateField(video.sourceName, target, translate).Kept?
      && TranslateField(video.sourceName, target, translate).value == s.upserts[0].sourceName
      && TranslateField(video.platformName, target, translate).Kept?
      && TranslateField(video.platformName, target, translate).value == s.upserts[0].platformName
    // the entry exists exactly when every field is kept and the upsert does
    // not throw; a throwing field writes only the fallback, and a throwing
    // upsert is followed by the fallback
    ensures KeptRow(video, target, translate).None? ==>
      s.upserts == [FallbackRow(video, target)] && s.result.None?
    ensures KeptRow(video, target, translate).Some? ==>
      var row := KeptRow(video, target, translate).value;
      && s.upserts[0] == row
      && (s.result.Some? <==> store(row) != WriteThrows)
      && (store(row) == WriteThrows ==> s.upserts == [row, FallbackRow(video, target)])
    // the endpoint calls are the fields' own, in field order, up to the
    // first field that throws
    ensures
      var title := TranslateField(video.title, target, translate);
      var sourceName := TranslateField(video.sourceName, target, translate);
      var platformName := TranslateField(video.platformName, target, translate);
      && (title.FieldThrows? ==> s.calls == [])
      && (title.Kept? && sourceName.FieldThrows? ==> s.calls == title.calls)
      && (title.Kept? && sourceName.Kept? && platformName.FieldThrows? ==> s.calls == title.calls + sourceName.calls)
      && (title.Kept? && sourceName.Kept? && platformName.Kept? ==>
            s.calls == title.calls + sourceName.calls + platformName.calls)
    // a field that cannot be read as text makes the iteration throw
    ensures
      || (Truthy(video.title) && !video.title.Str?)
      || (Truthy(video.sourceName) && !video.sourceName.Str?)
      || (Truthy(video.platformName) && !video.platformName.Str?)
      ==> s.result.None?
  {
    var fallback := FallbackRow(video, target);
    match TranslateField(video.title, target, translate)
    case FieldThrows => Step([fallback], None, [])
    case Kept(title, titleCalls) =>
      match TranslateField(video.sourceName, target, translate)
      case FieldThrows => Step([fallback], None, titleCalls)
      case Kept(sourceName, sourceCalls) =>
        match TranslateField(video.platformName, target, translate)
        case FieldThrows => Step([fallback], None, titleCalls + sourceCalls)
        case Kept(platformName, platformCalls) =>
          var row := Row(video.id, target, title, sourceName, platformName);
          var calls := titleCalls + sourceCalls + platformCalls;
          match store(row)
          case WriteThrows => Step([row, fallback], None, calls)
          case write =>
            var result := LanguageResult(
              target, write == Saved,
              video.title != title, video.sourceName != sourceName, video.platformName != platformName);
            Step([row], Some(result), calls)
  }

  function ResultLanguages(results: seq<LanguageResult>): (langs: seq<string>)
    ensures |langs| == |results|
    ensures forall i :: 0 <= i < |results| ==> langs[i] == results[i].language
  {
    if |results| == 0 then [] else ResultLanguages(results[..|results| - 1]) + [results[|results| - 1].language]
  }

  function CountSuccesses(results: seq<LanguageResult>): nat {
    if |results| == 0 then 0
    else CountSuccesses(results[..|results| - 1]) + (if results[|results| - 1].success then 1 else 0)
  }

  function UpsertLanguages(upserts: seq<Row>): seq<string> {
    if |upserts| == 0 then [] else UpsertLanguages(upserts[..|upserts| - 1]) + [upserts[|upserts| - 1].language]
  }

  /** The state after the loop: the upserts issued in order, `results`,
      `successCount` and the endpoint calls in order. */
  datatype Run = Run(upserts: seq<Row>, results: seq<LanguageResult>, successCount: nat, calls: seq<Request>)

  /** The loop over `targets` (line 82), one iteration per language. */
  function FanOut(video: Video, targets: seq<string>, translate: Translator, store: Store): (run: Run)
    decreases |targets|
    // the counter agrees with the entries it counts
    ensures run.successCount == CountSuccesses(run.results)
    ensures run.successCount <= |run.results| <= |targets|
  {
    if |targets| == 0 then Run([], [], 0, [])
    else
      var prior := FanOut(video, targets[..|targets| - 1], translate, store);
      var step := TranslateLanguage(video, targets[|targets| - 1], translate, store);
      match step.result
      case None =>
        Run(prior.upserts + step.upserts, prior.results, prior.successCount, prior.calls + step.calls)
      case Some(result) =>
        assert (prior.results + [result])[..|prior.results|] == prior.results;
        Run(prior.upserts + step.upserts, prior.results + [result],
            prior.successCount + (if result.success then 1 else 0), prior.calls + step.calls)
  }

  /** One more language adds at most one entry, under that language. */
  lemma ResultsStep(video: Video, targets: seq<string>, translate: Translator, store: Store)
      returns (added: seq<LanguageResult>)
    requires |targets| > 0
    ensures FanOut(video, targets, translate, store).results ==
      FanOut(video, targets[..|targets| - 1], translate, store).results + added
    ensures |added| <= 1
    ensures forall r :: r in added ==> r.language == targets[|targets| - 1]
  {
    var step := TranslateLanguage(video, targets[|targets| - 1], translate, store);
    added := if step.result.Some? then [step.result.value] else [];
  }

  /** Entries come in language order, at most one per language. */
  lemma {:induction false} FanOutOrder(video: Video, targets: seq<string>, translate: Translator, store: Store)
    ensures Languages.IsSubsequence(ResultLanguages(FanOut(video, targets, translate, store).results), targets)
    decreases |targets|
  {
    if |targets| > 0 {
      var init := targets[..|targets| - 1];
      var prior := FanOut(video, init, translate, store).results;
      var results := FanOut(video, targets, translate, store).results;
      FanOutOrder(video, init, translate, store);
      var added := ResultsStep(video, targets, translate, store);
      if |added| == 0 {
        assert results == prior;
        Languages.SubsequenceSkip(ResultLanguages(results), targets);
      } else {
        assert added[0] in added;
        assert results[..|results| - 1] == prior;
        assert ResultLanguages(results)[..|results| - 1] == ResultLanguages(prior);
        Languages.SubsequenceTake(ResultLanguages(results), targets);
      }
    }
  }

  /** Every upsert is keyed on the video and one of the languages, and every
      language, whatever happened to the others, has a row written under its key. */
  lemma {:induction false} FanOutKeys(video: Video, targets: seq<string>, translate: Translator, store: Store)
    ensures forall u :: u in FanOut(video, targets, translate, store).upserts ==> u.videoId == video.id && u.language in targets
    ensures forall t :: t in targets ==> t in UpsertLanguages(FanOut(video, targets, translate, store).upserts)
    decreases |targets|
  {
    if |targets| > 0 {
      var init := targets[..|targets| - 1];
      var target := targets[|targets| - 1];
      var prior := FanOut(video, init, translate, store);
      var step := TranslateLanguage(video, target, translate, store);
      var run := FanOut(video, targets, translate, store);
      assert run.upserts == prior.upserts + step.upserts;
      FanOutKeys(video, init, translate, store);
      UpsertLanguagesAppend(prior.upserts, step.upserts);
      assert targets == init + [target];
      assert step.upserts[0] in step.upserts;
    }
  }

  /** Each entry is what its language's iteration produced, and every
      iteration that completes contributes its entry. */
  lemma {:induction false} FanOutEntries(video: Video, targets: seq<string>, translate: Translator, store: Store)
    ensures forall r :: r in FanOut(video, targets, translate, store).results ==>
      TranslateLanguage(video, r.language, translate, store).result == Some(r)
    ensures forall t :: t in targets && TranslateLanguage(video, t, translate, store).result.Some? ==>
      TranslateLanguage(video, t, translate, store).result.value in FanOut(video, targets, translate, store).results
    decreases |targets|
  {
    if |targets| > 0 {
      var init := targets[..|targets| - 1];
      var target := targets[|targets| - 1];
      FanOutEntries(video, init, translate, store);
      assert targets == init + [target];
    }
  }

  /** Every upsert is one its language's iteration issued, and every upsert
      of every iteration is issued: a completed language writes its
      translated row, and a throwing one its fallback of originals. */
  lemma {:induction false} FanOutUpserts(video: Video, targets: seq<string>, translate: Translator, store: Store)
    ensures forall u :: u in FanOut(video, targets, translate, store).upserts ==>
      u in TranslateLanguage(video, u.language, translate, store).upserts
    ensures forall t, u :: t in targets && u in TranslateLanguage(video, t, translate, store).upserts ==>
      u in FanOut(video, targets, translate, store).upserts
    decreases |targets|
  {
    if |targets| > 0 {
      var init := targets[..|targets| - 1];
      var target := targets[|targets| - 1];
      var prior := FanOut(video, init, translate, store).upserts;
      var step := TranslateLanguage(video, target, translate, store).upserts;
      var upserts := FanOut(video, targets, translate, store).upserts;
      assert upserts == prior + step;
      FanOutUpserts(video, init, translate, store);
      forall u | u in upserts ensures u in TranslateLanguage(video, u.language, translate, store).upserts {
        if u !in prior {
          assert u in step;
        }
      }
      forall t, u | t in targets && u in TranslateLanguage(video, t, translate, store).upserts
        ensures u in upserts
      {
        if t != target {
          assert t in init by { assert targets == init + [target]; }
        }
      }
    }
  }

  /** Each language's upserts, in language order. */
  function IterationUpserts(video: Video, targets: seq<string>, translate: Translator, store: Store): seq<seq<Row>>
    decreases |targets|
  {
    if |targets| == 0 then []
    else
      IterationUpserts(video, targets[..|targets| - 1], translate, store)
      + [TranslateLanguage(video, targets[|targets| - 1], translate, store).upserts]
  }

  /** Each language's endpoint calls, in language order. */
  function IterationCalls(video: Video, targets: seq<string>, translate: Translator, store: Store): seq<seq<Request>>
    decreases |targets|
  {
    if |targets| == 0 then []
    else
      IterationCalls(video, targets[..|targets| - 1], translate, store)
      + [TranslateLanguage(video, targets[|targets| - 1], translate, store).calls]
  }

  /** The i-th lists are the i-th language's own upserts and calls. */
  lemma {:induction false} IterationsAt(video: Video, targets: seq<string>, translate: Translator, store: Store)
    ensures |IterationUpserts(video, targets, translate, store)| == |IterationCalls(video, targets, translate, store)| == |targets|
    ensures forall i :: 0 <= i < |targets| ==>
      && IterationUpserts(video, targets, translate, store)[i] == TranslateLanguage(video, targets[i], translate, store).upserts
      && IterationCalls(video, targets, translate, store)[i] == TranslateLanguage(video, targets[i], translate, store).calls
    decreases |targets|
  {
    if |targets| > 0 {
      var init := targets[..|targets| - 1];
      IterationsAt(video, init, translate, store);
      assert forall i :: 0 <= i < |init| ==> targets[i] == init[i];
    }
  }

  /** The loop issues exactly its iterations' upserts and calls: language by
      language, each iteration's in its own order, nothing added, repeated
      or dropped. */
  lemma {:induction false} FanOutIssues(video: Video, targets: seq<string>, translate: Translator, store: Store)
    ensures FanOut(video, targets, translate, store).upserts ==
      Languages.Flatten(IterationUpserts(video, targets, translate, store))
    ensures FanOut(video, targets, translate, store).calls ==
      Languages.Flatten(IterationCalls(video, targets, translate, store))
    decreases |targets|
  {
    if |targets| > 0 {
      var init := targets[..|targets| - 1];
      var step := TranslateLanguage(video, targets[|targets| - 1], translate, store);
      FanOutIssues(video, init, translate, store);
      var upserts := IterationUpserts(video, init, translate, store);
      var calls := IterationCalls(video, init, translate, store);
      Languages.FlattenSnoc(upserts, step.upserts);
      Languages.FlattenSnoc(calls, step.calls);
    }
  }

  lemma {:induction false} UpsertLanguagesAppend(a: seq<Row>, b: seq<Row>)
    ensures UpsertLanguages(a + b) == UpsertLanguages(a) + UpsertLanguages(b)
    ensures forall u :: u in b ==> u.language in UpsertLanguages(a + b)
    decreases |b|
  {
    if |b| == 0 {
      assert a + b == a;
    } else {
      var init := b[..|b| - 1];
      assert (a + b)[..|a + b| - 1] == a + init;
      UpsertLanguagesAppend(a, init);
      assert b == init + [b[|b| - 1]];
      forall u | u in b ensures u.language in UpsertLanguages(a + b) {
        if u != b[|b| - 1] {
          assert u in init;
        }
      }
    }
  }

  datatype Response =
    /** status 400 with `{ error }` */
    | BadRequest(error: string)
    /** status 500: an exception outside the per-language try */
    | ServerError
    /** status 200 */
    | Summary(videoId: JsValue, translationsCreated: nat, totalLanguages: nat, results: seq<LanguageResult>)

  datatype Outcome = Outcome(response: Response, upserts: seq<Row>, calls: seq<Request>)

  /** The whole webhook on the parsed payload. Reading `payload.record` of a
      `null` payload throws; the log line after the field reads calls
      `title.substring` whenever the title is truthy, which throws for a
      non-string title before the id is checked. */
  function Handle(payload: JsValue, translate: Translator, store: Store): (out: Outcome)
    // errors are decided before any call or write
    ensures !out.response.Summary? ==> out.upserts == [] && out.calls == []
    ensures payload.Null? || payload.Undefined? ==> out.response == ServerError
    ensures !payload.Null? && !payload.Undefined? && !Truthy(Prop(payload, "record")) ==>
      out.response == BadRequest(NoRecordError)
    ensures !payload.Null? && !payload.Undefined? && Truthy(Prop(payload, "record")) ==>
      var record := Prop(payload, "record");
      var title := Prop(record, "title");
      && (Truthy(title) && !title.Str? ==> out.response == ServerError)
      && ((title.Str? || !Truthy(title)) && !Truthy(Prop(record, "id")) ==> out.response == BadRequest(MissingIdError))
    // a record with an id and a readable title runs the six-language loop
    // and reports it
    ensures !payload.Null? && !payload.Undefined? && Truthy(Prop(payload, "record")) ==>
      var record := Prop(payload, "record");
      var video := Video(Prop(record, "id"), Prop(record, "title"), Prop(record, "source_name"), Prop(record, "platform_name"));
      var run := FanOut(video, Languages.Targets, translate, store);
      (video.title.Str? || !Truthy(video.title)) && Truthy(video.id) ==>
        out == Outcome(Summary(video.id, run.successCount, 6, run.results), run.upserts, run.calls)
    // a summary always covers the six languages, counts the saved ones,
    // and lists entries in language order, one per language at most
    ensures out.response.Summary? ==>
      && out.response.totalLanguages == 6
      && out.response.translationsCreated == CountSuccesses(out.response.results) <= 6
      && Languages.IsSubsequence(ResultLanguages(out.response.results), Languages.Targets)
      && Languages.NoDuplicates(ResultLanguages(out.response.results))
      && Truthy(out.response.videoId)
      && forall t :: t in Languages.Targets ==> t in UpsertLanguages(out.upserts)
  {
    match GetProp(payload, "record")
    case TypeError => Outcome(ServerError, [], [])
    case Value(record) =>
      if !Truthy(record) then Outcome(BadRequest(NoRecordError), [], [])
      else
        var video := Video(Prop(record, "id"), Prop(record, "title"), Prop(record, "source_name"), Prop(record, "platform_name"));
        if Truthy(video.title) && !video.title.Str? then Outcome(ServerError, [], [])
        else if !Truthy(video.id) then Outcome(BadRequest(MissingIdError), [], [])
        else
          var run := FanOut(video, Languages.Targets, translate, store);
          FanOutOrder(video, Languages.Targets, translate, store);
          FanOutKeys(video, Languages.Targets, translate, store);
          Languages.TargetsHaveNoDuplicates();
          Languages.SubsequenceNoDuplicates(ResultLanguages(run.results), Languages.Targets);
          Outcome(Summary(video.id, run.successCount, |Languages.Targets|, run.results), run.upserts, run.calls)
  }

  /** A missing or blank field is written unchanged and never flagged as
      translated, in every language. */
  lemma BlankFieldNeverTranslated(video: Video, target: string, translate: Translator, store: Store)
    ensures var s := TranslateLanguage(video, target, translate, store);
      s.result.Some? ==>
        && ((!video.title.Str? || IsBlank(video.title.s)) ==> !s.result.value.titleTranslated)
        && ((!video.sourceName.Str? || IsBlank(video.sourceName.s)) ==> !s.result.value.sourceNameTranslated)
        && ((!video.platformName.Str? || IsBlank(video.platformName.s)) ==> !s.result.value.platformNameTranslated)
  {
  }

  /** When no call for this language yields a usable answer (each one is
      non-ok, throws, or has an empty `data[0]`), every row written for it
      carries the originals. */
  lemma EndpointDownKeepsOriginals(video: Video, target: string, translate: Translator, store: Store)
    requires forall r: Request :: r.target == target ==> !(translate(r).Ok? && |translate(r).segments| > 0)
    ensures forall u :: u in TranslateLanguage(video, target, translate, store).upserts ==>
      u.title == video.title && u.sourceName == video.sourceName && u.platformName == video.platformName
  {
  }
}

=== FILE: endpoint.dfy ===
/** A value that may be absent. */
module Optional {
  datatype Option<+T> = None | Some(value: T)
}

/** The public translation endpoint every translating handler calls
    (`translate_a/single?client=gtx&sl=auto&tl=<target>&dt=t&q=<text>`),
    replaced by an oracle that maps each request to its outcome, and the two
    ways the handlers turn the endpoint's segment list into one string. */
module Endpoint {
  import opened JsValues

  /** One outbound call: the `q` text and the `tl` target code. */
  datatype Request = Request(text: string, target: string)

  /** What one call amounts to. `Ok` carries, in order, the first element
      `item[0]` of every entry `item` of `data[0]` (empty when `data[0]` is
      missing or empty); `NotOk` is an answer whose `response.ok` is false;
      `Throws` is a network failure or a body that cannot be read. */
  datatype Fetch =
    | Ok(segments: seq<JsValue>)
    | NotOk
    | Throws

  /** The endpoint, as far as one invocation of a handler can observe it. */
  type Translator = Request -> Fetch

  /** What `Array.prototype.join` writes for one element: nothing for
      `null` and `undefined`, the string conversion of anything else. */
  function SegmentText(v: JsValue): string {
    if v.Undefined? || v.Null? then "" else ToString(v)
  }

  /** `data[0].map((item) => item[0]).join('')`, the concatenation used by
      the video and news handlers. */
  function Join(segments: seq<JsValue>): string {
    if |segments| == 0 then "" else SegmentText(segments[0]) + Join(segments[1..])
  }

  /** The loop `for (const item of data[0]) if (item[0]) translated += item[0]`
      of the single-text handler: falsy segments are skipped. */
  function ConcatTruthy(segments: seq<JsValue>): string {
    if |segments| == 0 then ""
    else (if Truthy(segments[0]) then ToString(segments[0]) else "") + ConcatTruthy(segments[1..])
  }

  /** Joining is a homomorphism from sequence concatenation to string
      concatenation: the segments contribute their texts in order. */
  lemma {:induction false} JoinAppend(a: seq<JsValue>, b: seq<JsValue>)
    ensures Join(a + b) == Join(a) + Join(b)
    decreases |a|
  {
    if |a| == 0 {
      assert a + b == b;
    } else {
      assert (a + b)[1..] == a[1..] + b;
      JoinAppend(a[1..], b);
    }
  }

  /** The joined text is empty exactly when every segment contributes nothing. */
  lemma {:induction false} JoinEmptyIff(segments: seq<JsValue>)
    ensures Join(segments) == "" <==> forall i :: 0 <= i < |segments| ==> SegmentText(segments[i]) == ""
    decreases |segments|
  {
    if |segments| > 0 {
      JoinEmptyIff(segments[1..]);
      assert forall i :: 1 <= i < |segments| ==> segments[i] == segments[1..][i - 1];
    }
  }

  /** A falsy value that `join` would still write out: `false` or `0`. */
  predicate IsFalsyScalar(v: JsValue) {
    v == Bool(false) || v == Num(0)
  }

  /** The two ways of concatenating segments agree unless a segment is
      `false` or `0`, which the loop skips and `join` writes out; in
      particular they agree on every answer made of strings and nulls. */
  lemma {:induction false} ConcatTruthyAgreesWithJoin(segments: seq<JsValue>)
    requires forall i :: 0 <= i < |segments| ==> !IsFalsyScalar(segments[i])
    ensures ConcatTruthy(segments) == Join(segments)
    decreases |segments|
  {
    if |segments| > 0 {
      assert forall i :: 0 <= i < |segments[1..]| ==> segments[1..][i] == segments[i + 1];
      ConcatTruthyAgreesWithJoin(segments[1..]);
    }
  }

  /** The witness that the two concatenations differ: `[0]` joins to "0"
      while the loop skips it. */
  lemma ConcatTruthyDiffersOnZero()
    ensures ConcatTruthy([Num(0)]) == "" && Join([Num(0)]) == "0"
  {
  }
}

=== FILE: js_values.dfy ===
/** JavaScript values as the handlers receive them from a parsed JSON body,
    together with the few coercions the handlers rely on: truthiness,
    conversion to a string, property lookup and `String.prototype.trim`.

    Strings are Dafny strings of Unicode scalar values, where JavaScript
    counts UTF-16 code units; numbers are unbounded integers, where
    JavaScript has IEEE doubles. */
module JsValues {

  datatype JsValue =
    | Undefined
    | Null
    | Bool(b: bool)
    | Num(n: int)
    | Str(s: string)
    | Obj(fields: map<string, JsValue>)

  /** JavaScript truthiness: `undefined`, `null`, `false`, `0` and `''` are falsy. */
  predicate Truthy(v: JsValue) {
    match v
    case Undefined => false
    case Null => false
    case Bool(b) => b
    case Num(n) => n != 0
    case Str(s) => s != ""
    case Obj(_) => true
  }

  function DigitChar(d: nat): char
    requires d < 10
  {
    "0123456789"[d]
  }

  /** The decimal numeral of `n`, without leading zeros. */
  function NatToDecimal(n: nat): (r: string)
    ensures |r| > 0
  {
    if n < 10 then [DigitChar(n)] else NatToDecimal(n / 10) + [DigitChar(n % 10)]
  }

  /** `String(v)`: what a template literal, `encodeURIComponent`, `+=` on a
      string and `Array.prototype.join` make of a value. */
  function ToString(v: JsValue): string {
    match v
    case Undefined => "undefined"
    case Null => "null"
    case Bool(b) => if b then "true" else "false"
    case Num(n) => if n < 0 then "-" + NatToDecimal(-n) else NatToDecimal(n)
    case Str(s) => s
    case Obj(_) => "[object Object]"
  }

  /** The result of reading `v.key`: reading a property of `undefined` or
      `null` throws a TypeError. */
  datatype Lookup = Value(value: JsValue) | TypeError

  /** `v.key` for a key that no built-in prototype defines (every key the
      handlers read is of this kind), so only an object's own fields matter. */
  function GetProp(v: JsValue, key: string): (r: Lookup)
    ensures r.TypeError? <==> v.Undefined? || v.Null?
  {
    match v
    case Undefined => TypeError
    case Null => TypeError
    case Obj(m) => if key in m then Value(m[key]) else Value(Undefined)
    case _ => Value(Undefined)
  }

  /** `v.key` for a `v` already known to be neither `undefined` nor `null`. */
  function Prop(v: JsValue, key: string): JsValue
    requires !v.Undefined? && !v.Null?
  {
    GetProp(v, key).value
  }

  /** The characters `String.prototype.trim` removes: the ECMAScript
      WhiteSpace and LineTerminator code points. */
  predicate IsTrimmable(c: char) {
    || c in {'\t', '\n', '\U{000B}', '\U{000C}', '\r', ' ', '\U{00A0}', '\U{1680}'}
    || c in {'\U{2028}', '\U{2029}', '\U{202F}', '\U{205F}', '\U{3000}', '\U{FEFF}'}
    || ('\U{2000}' <= c <= '\U{200A}')
  }

  /** Every character of `s` is removed by `trim`. */
  predicate IsBlank(s: string) {
    forall i :: 0 <= i < |s| ==> IsTrimmable(s[i])
  }

  function TrimStart(s: string): string {
    if |s| > 0 && IsTrimmable(s[0]) then TrimStart(s[1..]) else s
  }

  function TrimEnd(s: string): string {
    if |s| > 0 && IsTrimmable(s[|s| - 1]) then TrimEnd(s[..|s| - 1]) else s
  }

  /** `s.trim()`. */
  function Trim(s: string): string {
    TrimEnd(TrimStart(s))
  }

  lemma {:induction false} TrimStartEmptyIffBlank(s: string)
    ensures TrimStart(s) == "" <==> IsBlank(s)
    decreases |s|
  {
    if |s| > 0 && IsTrimmable(s[0]) {
      TrimStartEmptyIffBlank(s[1..]);
      assert IsBlank(s) <==> IsBlank(s[1..]) by {
        if IsBlank(s[1..]) {
          forall i | 0 <= i < |s| ensures IsTrimmable(s[i]) {
            if i > 0 { assert s[i] == s[1..][i - 1]; }
          }
        }
        if IsBlank(s) {
          forall i | 0 <= i < |s[1..]| ensures IsTrimmable(s[1..][i]) {
            assert s[1..][i] == s[i + 1];
          }
        }
      }
    } else if |s| > 0 {
      assert !IsTrimmable(s[0]);
    }
  }

  lemma {:induction false} TrimEndEmptyIffBlank(s: string)
    ensures TrimEnd(s) == "" <==> IsBlank(s)
    decreases |s|
  {
    if |s| > 0 && IsTrimmable(s[|s| - 1]) {
      var init := s[..|s| - 1];
      TrimEndEmptyIffBlank(init);
      assert IsBlank(s) <==> IsBlank(init) by {
        if IsBlank(init) {
          forall i | 0 <= i < |s| ensures IsTrimmable(s[i]) {
            if i < |s| - 1 { assert s[i] == init[i]; }
          }
        }
        if IsBlank(s) {
          forall i | 0 <= i < |init| ensures IsTrimmable(init[i]) {
            assert init[i] == s[i];
          }
        }
      }
    } else if |s| > 0 {
      assert !IsTrimmable(s[|s| - 1]);
    }
  }

  /** `s.trim() === ''` holds exactly when every character of `s` is
      whitespace or a line terminator (the empty string included). */
  lemma BlankIffTrimEmpty(s: string)
    ensures Trim(s) == "" <==> IsBlank(s)
  {
    var t := TrimStart(s);
    TrimStartEmptyIffBlank(s);
    TrimEndEmptyIffBlank(t);
    if t != "" {
      TrimStartStopsAtContent(s);
      assert !IsTrimmable(t[0]);
    }
  }

  /** What `TrimStart` leaves behind is empty or starts with content. */
  lemma {:induction false} TrimStartStopsAtContent(s: string)
    ensures TrimStart(s) == "" || !IsTrimmable(TrimStart(s)[0])
    decreases |s|
  {
    if |s| > 0 && IsTrimmable(s[0]) {
      TrimStartStopsAtContent(s[1..]);
    }
  }
}

=== FILE: languages.dfy ===
/** The fixed list of target languages the video and news handlers fan out
    over, and the order facts about the per-language result lists. */
module Languages {

  /** `supportedLanguages` of the video and news handlers, in loop order. */
  const Targets: seq<string> := ["hi", "es", "ur", "zh", "fr", "ja"]

  /** No element occurs twice. */
  predicate NoDuplicates<T(==)>(xs: seq<T>) {
    forall i, j :: 0 <= i < j < |xs| ==> xs[i] != xs[j]
  }

  /** `xs` is `ys` with some elements left out and the rest kept in order. */
  predicate IsSubsequence<T(==)>(xs: seq<T>, ys: seq<T>)
    decreases |ys|
  {
    if |ys| == 0 then |xs| == 0
    else
      || IsSubsequence(xs, ys[..|ys| - 1])
      || (|xs| > 0 && xs[|xs| - 1] == ys[|ys| - 1] && IsSubsequence(xs[..|xs| - 1], ys[..|ys| - 1]))
  }

  lemma TargetsHaveNoDuplicates()
    ensures NoDuplicates(Targets) && |Targets| == 6
  {
  }

  /** A fold step that skips the last element keeps the subsequence relation. */
  lemma SubsequenceSkip<T>(xs: seq<T>, ys: seq<T>)
    requires |ys| > 0 && IsSubsequence(xs, ys[..|ys| - 1])
    ensures IsSubsequence(xs, ys)
  {
  }

  /** A fold step that keeps the last element keeps the subsequence relation. */
  lemma SubsequenceTake<T>(xs: seq<T>, ys: seq<T>)
    requires |xs| > 0 && |ys| > 0 && xs[|xs| - 1] == ys[|ys| - 1]
    requires IsSubsequence(xs[..|xs| - 1], ys[..|ys| - 1])
    ensures IsSubsequence(xs, ys)
  {
  }

  /** Per-language lists laid end to end, first language first. */
  function Flatten<T>(xss: seq<seq<T>>): seq<T> {
    if |xss| == 0 then [] else xss[0] + Flatten(xss[1..])
  }

  /** Flattening one more list appends it at the end. */
  lemma {:induction false} FlattenSnoc<T>(xss: seq<seq<T>>, xs: seq<T>)
    ensures Flatten(xss + [xs]) == Flatten(xss) + xs
    decreases |xss|
  {
    if |xss| == 0 {
      assert xss + [xs] == [xs];
      assert [xs][1..] == [];
    } else {
      assert (xss + [xs])[1..] == xss[1..] + [xs];
      FlattenSnoc(xss[1..], xs);
    }
  }

  /** A subsequence is no longer than the sequence it is drawn from and
      draws every element from it. */
  lemma {:induction false} SubsequenceBounds<T>(xs: seq<T>, ys: seq<T>)
    requires IsSubsequence(xs, ys)
    ensures |xs| <= |ys|
    ensures forall x :: x in xs ==> x in ys
    decreases |ys|
  {
    if |ys| > 0 {
      var init := ys[..|ys| - 1];
      if IsSubsequence(xs, init) {
        SubsequenceBounds(xs, init);
      } else {
        var xinit := xs[..|xs| - 1];
        SubsequenceBounds(xinit, init);
        assert xs == xinit + [ys[|ys| - 1]];
      }
    }
  }

  /** A subsequence of a duplicate-free sequence is duplicate-free. */
  lemma {:induction false} SubsequenceNoDuplicates<T>(xs: seq<T>, ys: seq<T>)
    requires IsSubsequence(xs, ys) && NoDuplicates(ys)
    ensures NoDuplicates(xs)
    decreases |ys|
  {
    if |ys| > 0 {
      var init := ys[..|ys| - 1];
      var last := ys[|ys| - 1];
      assert NoDuplicates(init);
      if IsSubsequence(xs, init) {
        SubsequenceNoDuplicates(xs, init);
      } else {
        var xinit := xs[..|xs| - 1];
        SubsequenceNoDuplicates(xinit, init);
        SubsequenceBounds(xinit, init);
        assert last !in init;
        assert xs == xinit + [last];
        forall i, j | 0 <= i < j < |xs| ensures xs[i] != xs[j] {
          if j == |xs| - 1 {
            assert xs[i] == xinit[i] && xinit[i] in xinit;
          } else {
            assert xs[i] == xinit[i] && xs[j] == xinit[j];
          }
        }
      }
    }
  }
}

=== FILE: send_news_notifications.dfy ===
/** The notification handler (`send-news-notifications`): fetch a small batch
    of articles not yet notified and all device tokens, push one message per
    (article, non-empty token) pair, count successes and failures without
    letting one failure stop the rest, then mark every fetched article
    notified. Database reads, the push service and the bulk update are
    oracles. */
module SendNewsNotifications {
  import opened Optional

  /** The columns of a `news_articles` row the handler reads. */
  datatype Article = Article(id: string, title: Option<string>, summary: Option<string>, notified: bool)

  /** A `users_tokens` row: `fcm_token, platform`. */
  datatype UserToken = UserToken(fcmToken: Option<string>, platform: Option<string>)

  /** A select's `{ data, error }`: rows (a `null` data counts as no rows) or an error. */
  datatype Query<T> = Rows(rows: seq<T>) | QueryError

  /** How the bulk `update({ notified: true }).in('id', ids)` ends. */
  datatype Update = Updated | UpdateError

  /** How one `messaging.send` ends: a message id, or a thrown exception. */
  datatype Delivery = Delivered(messageId: string) | SendFailed

  /** The `.limit(5)` of the article query. */
  const BatchLimit: nat := 5
  /** The `.substring(0, 100)` of the message body. */
  const BodyLimit: nat := 100
  const Ellipsis: string := "..."
  const DefaultBody: string := "New news update"

  /** A title and body pair, as in the `notification` block and the APNs `alert`. */
  datatype Alert = Alert(title: Option<string>, body: string)

  /** The message handed to `messaging.send`, with its fixed delivery hints. */
  datatype Message = Message(
    token: string,
    notification: Alert,
    articleId: string,
    kind: string,
    clickAction: string,
    androidPriority: string,
    apnsSound: string,
    apnsBadge: int,
    apnsAlert: Alert,
    apnsPriority: string)

  /** The push service, as far as one invocation can observe it. */
  type Messenger = Message -> Delivery

  function Min(a: int, b: int): int {
    if a <= b then a else b
  }

  /** The text the body is cut from: `article.summary || 'New news update'`. */
  function BodySource(summary: Option<string>): string {
    if summary.Some? && summary.value != "" then summary.value else DefaultBody
  }

  /** `(article.summary || 'New news update').substring(0, 100) + '...'`. */
  function Body(summary: Option<string>): (body: string)
    ensures |body| <= BodyLimit + |Ellipsis|
    ensures |body| >= |Ellipsis| && body[|body| - |Ellipsis|..] == Ellipsis
    ensures var kept := |body| - |Ellipsis|;
      && kept == Min(|BodySource(summary)|, BodyLimit)
      && body[..kept] == BodySource(summary)[..kept]
  {
    var source := BodySource(summary);
    (if |source| <= BodyLimit then source else source[..BodyLimit]) + Ellipsis
  }

  /** The message for one article and one non-empty token (lines 101-130). */
  function BuildMessage(article: Article, token: string): (m: Message)
    ensures m.token == token && m.articleId == article.id
    ensures m.notification == m.apnsAlert == Alert(article.title, Body(article.summary))
  {
    var alert := Alert(article.title, Body(article.summary));
    Message(token, alert, article.id, "new_news", "FLUTTER_NOTIFICATION_CLICK", "high", "default", 1, alert, "10")
  }

  /** A token the loop sends to: `fcm_token` is present and non-empty. */
  predicate IsRecipient(t: UserToken) {
    t.fcmToken.Some? && t.fcmToken.value != ""
  }

  function Recipients(tokens: seq<UserToken>): (r: seq<string>)
    ensures |r| <= |tokens|
    ensures forall s :: s in r ==> s != ""
  {
    if |tokens| == 0 then []
    else Recipients(tokens[..|tokens| - 1]) + (if IsRecipient(tokens[|tokens| - 1]) then [tokens[|tokens| - 1].fcmToken.value] else [])
  }

  /** The messages of one article, in token order (the inner loop). */
  function ArticleMessages(article: Article, tokens: seq<UserToken>): seq<Message> {
    if |tokens| == 0 then []
    else
      var last := tokens[|tokens| - 1];
      ArticleMessages(article, tokens[..|tokens| - 1])
        + (if IsRecipient(last) then [BuildMessage(article, last.fcmToken.value)] else [])
  }

  /** All messages, article by article (the outer loop). */
  function Messages(articles: seq<Article>, tokens: seq<UserToken>): seq<Message> {
    if |articles| == 0 then []
    else Messages(articles[..|articles| - 1], tokens) + ArticleMessages(articles[|articles| - 1], tokens)
  }

  /** How many of `sent` the push service accepted. */
  function CountDelivered(sent: seq<Message>, send: Messenger): (n: nat)
    ensures n <= |sent|
  {
    if |sent| == 0 then 0
    else CountDelivered(sent[..|sent| - 1], send) + (if send(sent[|sent| - 1]).Delivered? then 1 else 0)
  }

  lemma CountDeliveredSnoc(sent: seq<Message>, m: Message, send: Messenger)
    ensures CountDelivered(sent + [m], send) == CountDelivered(sent, send) + (if send(m).Delivered? then 1 else 0)
  {
    assert (sent + [m])[..|sent|] == sent;
  }

  /** One article's messages go to exactly the recipient tokens, in order. */
  lemma {:induction false} ArticleMessagesTokens(article: Article, tokens: seq<UserToken>)
    ensures |ArticleMessages(article, tokens)| == |Recipients(tokens)|
    ensures forall i :: 0 <= i < |Recipients(tokens)| ==>
      ArticleMessages(article, tokens)[i] == BuildMessage(article, Recipients(tokens)[i])
    decreases |tokens|
  {
    if |tokens| > 0 {
      ArticleMessagesTokens(article, tokens[..|tokens| - 1]);
    }
  }

  /** One message per (article, recipient) pair. */
  lemma {:induction false} MessagesCount(articles: seq<Article>, tokens: seq<UserToken>)
    ensures |Messages(articles, tokens)| == |articles| * |Recipients(tokens)|
    decreases |articles|
  {
    if |articles| > 0 {
      var init := articles[..|articles| - 1];
      MessagesCount(init, tokens);
      ArticleMessagesTokens(articles[|articles| - 1], tokens);
      calc {
        |Messages(articles, tokens)|;
        |Messages(init, tokens)| + |Recipients(tokens)|;
        |init| * |Recipients(tokens)| + |Recipients(tokens)|;
        (|init| + 1) * |Recipients(tokens)|;
      }
    }
  }

  /** Counting the deliveries of two batches of sends adds up. */
  lemma {:induction false} CountDeliveredAppend(a: seq<Message>, b: seq<Message>, send: Messenger)
    ensures CountDelivered(a + b, send) == CountDelivered(a, send) + CountDelivered(b, send)
    decreases |b|
  {
    if |b| == 0 {
      assert a + b == a;
    } else {
      var init := b[..|b| - 1];
      CountDeliveredAppend(a, init, send);
      assert (a + b)[..|a + b| - 1] == a + init;
    }
  }

  /** The inner loop for one article (lines 92-142): empty tokens are
      skipped, every other token gets one attempt whatever earlier attempts
      did, and each attempt counts once as a success or an error. */
  method SendToTokens(article: Article, tokens: seq<UserToken>, send: Messenger)
    returns (delivered: nat, failed: nat, sent: seq<Message>)
    ensures sent == ArticleMessages(article, tokens)
    ensures delivered == CountDelivered(sent, send)
    ensures delivered + failed == |sent|
  {
    delivered, failed, sent := 0, 0, [];
    var j := 0;
    while j < |tokens|
      invariant 0 <= j <= |tokens|
      invariant sent == ArticleMessages(article, tokens[..j])
      invariant delivered == CountDelivered(sent, send)
      invariant delivered + failed == |sent|
    {
      var token := tokens[j];
      assert tokens[..j + 1][..j] == tokens[..j] && tokens[..j + 1][j] == token;
      if IsRecipient(token) {
        var message := BuildMessage(article, token.fcmToken.value);
        if send(message).Delivered? {
          delivered := delivered + 1;
        } else {
          failed := failed + 1;
        }
        CountDeliveredSnoc(sent, message, send);
        sent := sent + [message];
      }
      j := j + 1;
    }
    assert tokens[..|tokens|] == tokens;
  }

  /** The nested send loop (lines 86-143): every (article, non-empty token)
      pair is attempted, and `successCount + errorCount` is their number. */
  method SendAll(articles: seq<Article>, tokens: seq<UserToken>, send: Messenger)
    returns (successCount: nat, errorCount: nat, sent: seq<Message>)
    ensures sent == Messages(articles, tokens)
    ensures successCount == CountDelivered(sent, send)
    ensures successCount + errorCount == |sent| == |articles| * |Recipients(tokens)|
  {
    successCount, errorCount, sent := 0, 0, [];
    var i := 0;
    while i < |articles|
      invariant 0 <= i <= |articles|
      invariant sent == Messages(articles[..i], tokens)
      invariant successCount == CountDelivered(sent, send)
      invariant successCount + errorCount == |sent|
    {
      var delivered, failed, articleSent := SendToTokens(articles[i], tokens, send);
      CountDeliveredAppend(sent, articleSent, send);
      assert articles[..i + 1][..i] == articles[..i];
      successCount, errorCount, sent := successCount + delivered, errorCount + failed, sent + articleSent;
      i := i + 1;
    }
    assert articles[..|articles|] == articles;
    MessagesCount(articles, tokens);
  }

  function Ids(articles: seq<Article>): (ids: seq<string>)
    ensures |ids| == |articles|
    ensures forall i :: 0 <= i < |articles| ==> ids[i] == articles[i].id
  {
    if |articles| == 0 then [] else Ids(articles[..|articles| - 1]) + [articles[|articles| - 1].id]
  }

  datatype Response =
    /** `{ message: 'No new articles' }` */
    | NoNewArticles
    /** `{ message: 'No user tokens found' }` */
    | NoUserTokens
    /** `Notifications sent for <n> articles - <s> successful, <e> failed` */
    | Sent(articleCount: nat, successCount: nat, errorCount: nat)
    /** status 500 with the thrown error's message */
    | ServerError

  /** The response, the messages handed to the push service in order, and the
      ids passed to the bulk update when it was issued. */
  datatype Outcome = Outcome(response: Response, sent: seq<Message>, marked: Option<seq<string>>)

  /** The handler after Firebase has been initialised (lines 29-173). The
      article query is taken to honour its filter and limit. */
  method Handle(articles: Query<Article>, tokens: Query<UserToken>, send: Messenger, update: Update)
    returns (out: Outcome)
    requires articles.Rows? ==> |articles.rows| <= BatchLimit
    requires articles.Rows? ==> forall a :: a in articles.rows ==> !a.notified
    // early exits send nothing and mark nothing
    ensures articles.QueryError? ==> out == Outcome(ServerError, [], None)
    ensures articles == Rows([]) ==> out == Outcome(NoNewArticles, [], None)
    ensures articles.Rows? && articles.rows != [] && tokens.QueryError? ==> out == Outcome(ServerError, [], None)
    ensures articles.Rows? && articles.rows != [] && tokens == Rows([]) ==> out == Outcome(NoUserTokens, [], None)
    // otherwise every pair is attempted, and every fetched id is marked,
    // whatever the sends did
    ensures articles.Rows? && articles.rows != [] && tokens.Rows? && tokens.rows != [] ==>
      && out.sent == Messages(articles.rows, tokens.rows)
      && |out.sent| <= BatchLimit * |tokens.rows|
      && out.marked == Some(Ids(articles.rows))
      && (update == UpdateError ==> out.response == ServerError)
      && (update == Updated ==> out.response == Sent(|articles.rows|,
            CountDelivered(out.sent, send), |out.sent| - CountDelivered(out.sent, send)))
    // a token list whose every `fcm_token` is empty passes the "no tokens"
    // check, sends nothing, and still marks the whole batch notified
    ensures
      && articles.Rows? && articles.rows != [] && tokens.Rows? && tokens.rows != []
      && (forall t :: t in tokens.rows ==> !IsRecipient(t))
      ==> out.sent == [] && out.marked == Some(Ids(articles.rows))
  {
    if articles.QueryError? {
      return Outcome(ServerError, [], None);
    }
    if |articles.rows| == 0 {
      return Outcome(NoNewArticles, [], None);
    }
    if tokens.QueryError? {
      return Outcome(ServerError, [], None);
    }
    if |tokens.rows| == 0 {
      return Outcome(NoUserTokens, [], None);
    }
    var successCount, errorCount, sent := SendAll(articles.rows, tokens.rows, send);
    var ids := Ids(articles.rows);
    if forall t :: t in tokens.rows ==> !IsRecipient(t) {
      EmptyTokensSendNothing(articles.rows, tokens.rows);
    }
    assert |Recipients(tokens.rows)| <= |tokens.rows|;
    assert |articles.rows| * |Recipients(tokens.rows)| <= BatchLimit * |tokens.rows| by {
      LeMul(|articles.rows|, BatchLimit, |Recipients(tokens.rows)|, |tokens.rows|);
    }
    match update
    case UpdateError => out := Outcome(ServerError, sent, Some(ids));
    case Updated => out := Outcome(Sent(|articles.rows|, successCount, errorCount), sent, Some(ids));
  }

  lemma LeMul(a: nat, b: nat, c: nat, d: nat)
    requires a <= b && c <= d
    ensures a * c <= b * d
  {
  }

  /** A token list whose every `fcm_token` is empty yields no message. */
  lemma EmptyTokensSendNothing(articles: seq<Article>, tokens: seq<UserToken>)
    requires forall t :: t in tokens ==> !IsRecipient(t)
    ensures Messages(articles, tokens) == []
  {
    MessagesCount(articles, tokens);
    RecipientsNone(tokens);
  }

  lemma {:induction false} RecipientsNone(tokens: seq<UserToken>)
    requires forall t :: t in tokens ==> !IsRecipient(t)
    ensures Recipients(tokens) == []
    decreases |tokens|
  {
    if |tokens| > 0 {
      assert forall t :: t in tokens[..|tokens| - 1] ==> t in tokens;
      RecipientsNone(tokens[..|tokens| - 1]);
      assert tokens[|tokens| - 1] in tokens;
    }
  }
}

=== FILE: translate_content.dfy ===
/** The single-text translation handler (`translate-content`): validate the
    request, check the target against a ten-language whitelist, pass English
    through, otherwise call the endpoint once and fall back to the original
    text when the answer is unusable. */
module TranslateContent {
  import opened JsValues
  import opened Endpoint

  /** The keys of `supportedLanguages`; each maps to a non-empty language name. */
  const SupportedLanguages: set<string> := {"en", "hi", "es", "fr", "de", "zh", "ar", "ja", "ko", "ru"}

  /** The property names every object literal inherits from `Object.prototype`;
      each of them reads as a truthy value (a function, or the prototype itself). */
  const ObjectPrototypeKeys: set<string> := {
    "constructor", "hasOwnProperty", "isPrototypeOf", "propertyIsEnumerable",
    "toLocaleString", "toString", "valueOf", "__proto__",
    "__defineGetter__", "__defineSetter__", "__lookupGetter__", "__lookupSetter__"
  }

  const MissingFieldsError: string := "Text and target_language are required"
  const UnsupportedLanguageError: string := "Unsupported language"

  datatype Response =
    /** status 400 with `{ error }` */
    | BadRequest(error: string)
    /** status 200 with `{ translated_text, original_text, target_language }` */
    | Translated(translatedText: JsValue, originalText: JsValue, targetLanguage: JsValue)
    /** the catch block reads `text`, which is not in scope there, so it
        throws in turn and the runtime answers on the handler's behalf */
    | Unhandled

  /** The response together with the calls made to the endpoint, in order. */
  datatype Outcome = Outcome(response: Response, calls: seq<Request>)

  /** The handler once `supportedLanguages[target_language]` has been looked
      up; `listed` says whether the lookup produced a truthy value. */
  function Respond(text: JsValue, target: JsValue, listed: bool, translate: Translator): Outcome {
    if !Truthy(text) || !Truthy(target) then Outcome(BadRequest(MissingFieldsError), [])
    else if !listed then Outcome(BadRequest(UnsupportedLanguageError), [])
    else if target == Str("en") then Outcome(Translated(text, text, target), [])
    else
      var request := Request(ToString(text), ToString(target));
      var response :=
        match translate(request)
        case Ok(segments) =>
          var translated := ConcatTruthy(segments);
          Translated(if translated != "" then Str(translated) else text, text, target)
        case NotOk => Translated(text, text, target)
        case Throws => Unhandled;
      Outcome(response, [request])
  }

  /** The intended whitelist: one of the ten language keys. */
  predicate IsSupported(target: JsValue) {
    ToString(target) in SupportedLanguages
  }

  /** The handler on the destructured `text` and `target_language`, with the
      whitelist restricted to the ten language keys. */
  function Decide(text: JsValue, target: JsValue, translate: Translator): (out: Outcome)
    // validation happens first, and no call precedes a 400
    ensures out.response == BadRequest(MissingFieldsError) <==> !Truthy(text) || !Truthy(target)
    ensures out.response.BadRequest? <==> !(Truthy(text) && Truthy(target) && IsSupported(target))
    ensures Truthy(text) && Truthy(target) && !IsSupported(target) ==>
      out == Outcome(BadRequest(UnsupportedLanguageError), [])
    // at most one call, made exactly when the request is valid and not for English
    ensures |out.calls| <= 1
    ensures out.calls != [] <==> !out.response.BadRequest? && target != Str("en")
    ensures forall r :: r in out.calls ==> r == Request(ToString(text), ToString(target))
    // English passes through untouched
    ensures Truthy(text) && target == Str("en") ==> out.response == Translated(text, text, target)
    // every translation echoes the request and never answers with an empty text
    ensures out.response.Translated? ==>
      && out.response.originalText == text
      && out.response.targetLanguage == target
      && Truthy(out.response.translatedText)
    // fallback: a non-ok answer, or segments that concatenate to nothing, keep the original
    ensures out.calls != [] && translate(out.calls[0]).NotOk? ==> out.response == Translated(text, text, target)
    ensures out.calls != [] && translate(out.calls[0]).Ok? ==>
      var translated := ConcatTruthy(translate(out.calls[0]).segments);
      && (translated == "" ==> out.response == Translated(text, text, target))
      && (translated != "" ==> out.response == Translated(Str(translated), text, target))
    ensures out.response.Unhandled? <==> out.calls != [] && translate(out.calls[0]).Throws?
  {
    Respond(text, target, IsSupported(target), translate)
  }

  /** The handler as written: `supportedLanguages[target_language]` also
      finds the members every object inherits, so those names pass the check. */
  function DecideAsWritten(text: JsValue, target: JsValue, translate: Translator): (out: Outcome)
    ensures ToString(target) !in ObjectPrototypeKeys ==> out == Decide(text, target, translate)
  {
    Respond(text, target, ToString(target) in SupportedLanguages + ObjectPrototypeKeys, translate)
  }

  /** The whole request with the ten-key whitelist: destructuring a `null`
      body throws inside the try block, and the catch block then throws as
      well; any other body has its two fields read, missing ones as `undefined`. */
  function Handle(body: JsValue, translate: Translator): (out: Outcome)
    ensures body.Null? ==> out == Outcome(Unhandled, [])
    ensures !body.Null? && !body.Undefined? ==>
      out == Decide(Prop(body, "text"), Prop(body, "target_language"), translate)
    ensures body.Obj? && "text" in body.fields && "target_language" in body.fields ==>
      out == Decide(body.fields["text"], body.fields["target_language"], translate)
    ensures !body.Obj? && !body.Null? && !body.Undefined? ==> out == Outcome(BadRequest(MissingFieldsError), [])
    ensures body.Obj? && ("text" !in body.fields || "target_language" !in body.fields) ==>
      out == Outcome(BadRequest(MissingFieldsError), [])
  {
    match (GetProp(body, "text"), GetProp(body, "target_language"))
    case (Value(text), Value(target)) => Decide(text, target, translate)
    case _ => Outcome(Unhandled, [])
  }

  /** The whole request as written, with the prototype-chain whitelist. */
  function HandleAsWritten(body: JsValue, translate: Translator): (out: Outcome)
    ensures body.Null? ==> out == Outcome(Unhandled, [])
    ensures !body.Null? && !body.Undefined? ==>
      out == DecideAsWritten(Prop(body, "text"), Prop(body, "target_language"), translate)
    // the two handlers part only on an inherited member name
    ensures !body.Null? && !body.Undefined? && ToString(Prop(body, "target_language")) !in ObjectPrototypeKeys ==>
      out == Handle(body, translate)
  {
    match (GetProp(body, "text"), GetProp(body, "target_language"))
    case (Value(text), Value(target)) => DecideAsWritten(text, target, translate)
    case _ => Outcome(Unhandled, [])
  }

  /** Anything other than `undefined` and `null` converts to a non-empty
      string when it is truthy. */
  lemma TruthyToStringNonEmpty(v: JsValue)
    requires Truthy(v)
    ensures ToString(v) != ""
  {
  }

  /** The loop's result is empty exactly when every segment is falsy. */
  lemma {:induction false} ConcatTruthyEmptyIff(segments: seq<JsValue>)
    ensures ConcatTruthy(segments) == "" <==> forall i :: 0 <= i < |segments| ==> !Truthy(segments[i])
    decreases |segments|
  {
    if |segments| > 0 {
      ConcatTruthyEmptyIff(segments[1..]);
      assert forall i :: 1 <= i < |segments| ==> segments[i] == segments[1..][i - 1];
      if Truthy(segments[0]) {
        TruthyToStringNonEmpty(segments[0]);
      }
    }
  }

  /** An ok answer with a missing or empty `data[0]`, or with only falsy
      segments, yields the original text. */
  lemma {:induction false} FalsySegmentsFallBack(text: string, target: string, translate: Translator)
    requires text != "" && target in SupportedLanguages - {"en"}
    requires translate(Request(text, target)).Ok?
    requires forall i :: 0 <= i < |translate(Request(text, target)).segments| ==>
      !Truthy(translate(Request(text, target)).segments[i])
    ensures Decide(Str(text), Str(target), translate).response == Translated(Str(text), Str(text), Str(target))
  {
    ConcatTruthyEmptyIff(translate(Request(text, target)).segments);
  }

  /** `{ text: "Hello", target_language: "es" }` against an endpoint that
      answers `[[["Hola","Hello",null,null,1]]]` yields "Hola". */
  lemma HelloToSpanish(translate: Translator)
    requires translate(Request("Hello", "es")) == Ok([Str("Hola")])
    ensures Decide(Str("Hello"), Str("es"), translate)
         == Outcome(Translated(Str("Hola"), Str("Hello"), Str("es")), [Request("Hello", "es")])
  {
  }

  /** The whitelist as written lets `constructor` through: a request that
      should be refused with "Unsupported language" reaches the endpoint. */
  lemma PrototypeKeyReachesEndpoint(translate: Translator)
    ensures DecideAsWritten(Str("Hello"), Str("constructor"), translate).calls == [Request("Hello", "constructor")]
    ensures Decide(Str("Hello"), Str("constructor"), translate) == Outcome(BadRequest(UnsupportedLanguageError), [])
  {
  }

  /** The two whitelists differ exactly on the inherited names. */
  lemma AsWrittenDiffersOnlyOnPrototypeKeys(text: string, target: string, translate: Translator)
    requires text != "" && target != ""
    ensures DecideAsWritten(Str(text), Str(target), translate) != Decide(Str(text), Str(target), translate)
        <==> target in ObjectPrototypeKeys
  {
    var asWritten := DecideAsWritten(Str(text), Str(target), translate);
    if target in ObjectPrototypeKeys {
      assert target !in SupportedLanguages;
      assert !asWritten.response.BadRequest?;
    }
  }
}
